=== FILE: README.md ===
# slack_pytsk core, modelled in Dafny

`slack.py` reports the slack space of files in a filesystem image: the bytes
between a file's logical end and the end of its last allocated block. It
walks a directory tree through The Sleuth Kit's Python binding. In list mode
it prints a row per allow-listed attribute of every entry other than `.` and `..`, with a
type string and a display name. For a regular file the row also holds the
slack region size `s_size` and the number of non-zero bytes that the read
loop returns; for any other entry both columns are empty strings.
The loop starts reading at `l_block + l_d_size`, where `l_block` comes from
the last run's block offset and `l_d_size` is the size modulo the block
size. In extract mode it prints those non-zero bytes for a regular file in
which some were found, and a row for every entry that is not a regular file.

This project models the script's three pieces of logic as pure functions
over immutable data:

- **Slack computation** (`Slack`, `HexCodec`): the last run offset, the
  last-block byte offset, the slack region size, the read loop over a
  slack-flagged read primitive, and the `"%02x"` encode/decode of non-zero
  bytes.
- **Classification and naming** (`Classify`, `Scan`): the two type-code
  tables with their `'-'` default, the `name/meta` type string, the
  directory and regular-file tests, the attribute allow-list, the
  `name:attr` display name, the `.`/`..` filter and the mode-dependent
  emission rule.
- **Cycle-safe traversal** (`Walker`): the push/recurse/pop discipline of
  `list_directory` over a directory map, with the stack of directories
  being listed.

The filesystem is a value (`Tsk.Filesystem`). It holds the block size, a map
from inode address to what opening that address as a directory yields, and
the read primitive `slackRead(addr)(offset, len)`. The read primitive may
return any byte sequence, and an empty one ends the loop. Type codes are the
integer values of The Sleuth Kit's `TSK_FS_NAME_TYPE_*`,
`TSK_FS_META_TYPE_*` and `TSK_FS_ATTR_TYPE_*` enumerations. Those headers
are not part of this model.

Files: `wrappers.dfy` (Option, Result), `tsk.dfy` (data model),
`hexcodec.dfy`, `slack.dfy`, `classify.dfy`, `scan.dfy`, `walker.dfy`.

Behaviours of the code that are easy to misread, modelled as written:

- The code keeps the offset of the *last* run seen, not the highest one
  (`Slack.LastRunOffsetIsNotMaximum`).
- The filled count is not bounded by the region size: the loop runs while
  `l_block < size` and can read several times (`Slack.FilledMayExceedSlackSize`).
- `run.offset` is used as a block offset within the file, so the first read
  need not land after the logical end. A 600-byte file on 512-byte blocks
  whose one run is at offset 0 has `l_block = 0` and `l_d_size = 88`, so the
  first read is at byte 88, inside the file's own data
  (`Slack.ContiguousFileReadsData`).
- A file whose one run is at block offset 10, on 512-byte blocks and 600
  bytes long, has `l_block = 4608 >= 600`. Nothing is read and the filled
  count is 0, although the slack region is 424 bytes
  (`Slack.RunAtOffsetTenReadsNothing`).
- A non-regular entry keeps `''` for both slack fields. Under Python 2,
  `'' > 0` is true (`Scan.SizeAboveZero`), so extract mode prints every
  non-regular entry (`Scan.ExtractModeShowsNonRegular`).
- Only ancestors are refused: a directory reached through two sibling hard
  links is entered twice (`Walker.HardLinkedDirectoryEnteredTwice`).
- `except RuntimeError, IOError:` catches only `RuntimeError` in Python 2.
  An `IOError` from opening a subdirectory ends the run
  (`Walker.IOErrorAborts`), and only a `RuntimeError` prints the error
  marker and moves on to the next sibling (`Walker.RuntimeErrorContinues`).
- `f.info.meta.addr` (line 184) is read before any presence check, and
  `is_fs_regfile` (line 200) reads `f.info.name.type`. An entry without an
  inode record or a name record therefore raises before the `if meta and
  name` test at line 217. That test is always true when it is reached.
  The model returns `MissingMeta` or `MissingName` and the run ends.
  `Classify.TypeString` still renders a missing record as `'-'`, as lines
  186-194 do.
- The meta-type table maps symbolic links to `'h'` and both sockets and
  shadow entries to `'s'`. The name table uses `'l'` and `'h'` for links
  and sockets (`Classify.MetaTableQuirks`).

## Model

| member | source | states |
|---|---|---|
| HexCodec.DecodeHex | slack.py:161 | `chr(int(s, 16))` of a two-digit string is the byte whose high and low nibbles are the digits' values; for a lower-case pair, `"%02x"` gives the string back |
| HexCodec.EncodeAll | slack.py:150 | one string per byte, each two lower-case hex digits |
| HexCodec.DecodeAll | slack.py:161 | one byte per string, each with the string's digits as its nibbles |
| HexCodec.EncodeHex | slack.py:150 | `"%02x"` of a byte is exactly two lower-case hex digits |
| HexCodec.DecodeEncode | slack.py:150-161 | `chr(int(_, 16))` undoes `"%02x"` for every byte |
| HexCodec.EncodeDecode | slack.py:150-161 | re-encoding a decoded lower-case pair reproduces the string |
| HexCodec.NonZero | slack.py:150 | the kept bytes are no more than those read, and none is 0x00 |
| HexCodec.NonZeroAppend | slack.py:141-150 | dropping zeros chunk by chunk equals dropping them from everything read, order kept |
| HexCodec.NonZeroMultiset | slack.py:150 | exactly the 0x00 bytes are dropped; every other byte is kept with its multiplicity |
| HexCodec.NonZeroCount | slack.py:150 | the number of kept bytes is the number of non-zero bytes read |
| HexCodec.NonZeroFixes | slack.py:150 | the filter leaves zero-free data unchanged, so it is idempotent |
| HexCodec.DecodeAllEncodeAll | slack.py:150-161 | decoding the accumulated strings yields exactly the kept bytes |
| HexCodec.EncodeAllDecodeAll | slack.py:150-161 | re-encoding the decoded bytes reproduces the accumulated strings |
| Slack.RunsFold | slack.py:121-122 | after `for run in attr`, `l_offset` is the last run's offset, or unchanged when the attribute has no run |
| Slack.AttrsFold | slack.py:120-122 | after both loops, `l_offset` is the offset of the last run over all attributes, or unchanged when there is none |
| Slack.LastRunOffset | slack.py:118-122 | `l_offset` is the offset of the last run in iteration order over all attributes, or 0 when there are none |
| Slack.LastRunOffsetIsNotMaximum | slack.py:118-122 | a later run with a smaller offset wins over an earlier larger one |
| Slack.LastBlockByte | slack.py:124-128 | `l_block` is a non-negative multiple of the block size, 0 exactly when `l_offset <= 1`, else the start of block `l_offset - 1` |
| Slack.SlackSize | slack.py:133-137 | `0 < s_size <= blocksize`; `s_size == blocksize` exactly when the size is block-aligned, 0 included; size plus slack ends on a block boundary |
| Slack.ReadChunks | slack.py:141-147 | every chunk read is non-empty; no read happens when `l_block >= size` at the start; on exit `l_block >= size` or the next read is empty, where the final `l_block` is the start plus the number of bytes read |
| Slack.ReadChunksIsTrace | slack.py:141-147 | each chunk is the read issued at the offset reached so far, while still below `size` |
| Slack.TraceIsReadChunks | slack.py:141-147 | any sequence of reads meeting that description is the one the loop performs |
| Slack.SlackStrings | slack.py:139-154 | the accumulated strings are hex pairs, and there are none unless the encoding is ascii |
| Slack.SlackStringsFlatten | slack.py:139-154 | the accumulation equals the encodings of the non-zero bytes of everything read |
| Slack.GetSlack | slack.py:110-161 | list mode returns `(s_size, count)` and other modes return `(bytes, count)`; in ascii the count is the number of non-zero bytes read, otherwise 0; the count is at most the bytes read; the extracted bytes are the read bytes without zeros, in order, as many as the count; no read means a count of 0 |
| Slack.FilledMayExceedSlackSize | slack.py:134-158 | an 8-byte file on 4-byte blocks reports 8 filled bytes in a 4-byte region |
| Slack.ContiguousFileReadsData | slack.py:118-143 | one run at offset 0, 512-byte blocks and 600 bytes: the first read is at byte 88, inside the file's data, and there is no read at all when that one returns nothing |
| Slack.RunAtOffsetTenReadsNothing | slack.py:118-147 | one run at offset 10, 512-byte blocks and 600 bytes give region 424 and count 0 whatever the device holds |
| Classify.FileTypeLookup | slack.py:62-74 | the name table is total, and gives `'-'` exactly for codes outside FIFO..VIRT |
| Classify.FileTypeLookupInvertible | slack.py:62-74 | every letter other than `'-'` identifies its name-type code |
| Classify.MetaTypeLookup | slack.py:76-87 | the meta table is total, and gives `'-'` exactly for codes outside REG..VIRT |
| Classify.MetaTypeLookupCodes | slack.py:76-87 | each letter of the meta table is printed for exactly the codes it stands for: `r` REG, `d` DIR, `p` FIFO, `c` CHR, `b` BLK, `h` LNK, `s` SHAD and SOCK, `w` WHT, `v` VIRT |
| Classify.MetaTableQuirks | slack.py:62-87 | meta SHAD and SOCK share `'s'`; meta LNK and name SOCK share `'h'`; name LNK is `'l'` |
| Classify.TypeString | slack.py:186-194 | the type string is `x/y`, each side `'-'` exactly when its record is missing or its code unknown; the name letter identifies the name-type code and the meta letter stands for the meta-type code |
| Classify.IsFsDirectory | slack.py:164-167 | holds exactly when the name-type code is DIR |
| Classify.IsFsRegfile | slack.py:170-173 | holds exactly when the name-type code is REG, and never together with the directory test |
| Classify.IsPrintable | slack.py:206 | the allow-list holds exactly for DEFAULT, NTFS_DATA and NTFS_IDXROOT; no other attribute type yields a record |
| Classify.DisplayName | slack.py:207-212 | the display name starts with the entry name; it equals it exactly when the attribute name is empty, `$Data` or `$I30`; otherwise `:` and the attribute name follow |
| Scan.SizeAboveZero | slack.py:220 | Python 2's `slack_size > 0` holds for the `''` of a non-regular entry, and fails exactly when a regular file's filled count is 0 |
| Scan.AttrRecord | slack.py:205-221 | an attribute yields a record exactly when its type is printable, its display name is not `.` or `..`, and the mode's emission test passes; the record carries that display name, the entry's type string and slack fields, and is a list row exactly in list mode |
| Scan.AttrRecords | slack.py:204-221 | at most one record per attribute, none for `.` or `..`, each with the entry's type string and slack fields |
| Scan.AttrRecordsShape | slack.py:204-221 | either every printable, non-dot display name becomes a row or none does; list mode always emits; extract mode emits when `slack_size > 0` or for a directory |
| Scan.EntrySlack | slack.py:196-201 | the slack fields are left empty exactly for entries that are not regular files; for a regular file they are `get_slack` of its own inode: in list mode the region size `s_size` of its size and block size, and in every mode the count of non-zero bytes its read loop returns in ascii (0 otherwise), with those bytes themselves outside list mode |
| Scan.ScanInode | slack.py:176-221 | scanning succeeds exactly when both records are present; a missing inode record is reported first; no record is named `.` or `..` |
| Scan.ListModeRowPerName | slack.py:217-219 | list mode prints one row per shown name |
| Scan.ExtractModeShowsNonRegular | slack.py:196-220 | extract mode prints every shown name of a non-regular entry |
| Scan.ExtractModeRegularFile | slack.py:199-220 | in extract mode a regular file prints nothing exactly when its filled count is 0 or it has no shown name |
| Scan.DotEntryShowsNothing | slack.py:204-215 | `.` and `..` without named streams have no shown name |
| Tsk.OpenDir | slack.py:239 | opening an address as a directory yields its listing only when the address is a directory; any other address raises `IOError` |
| Walker.UnvisitedShrinks | slack.py:244-245 | pushing a directory not on the stack lowers the count of directories not on the stack, which bounds the recursion |
| Walker.ListDirectory | slack.py:224-249 | on return the stack equals its value before the call; the directory is entered first and its descendants extend the pushed stack; paths stay duplicate-free; no `.`/`..` record; an escaping exception keeps the first entry's rows at the head of what was printed |
| Walker.Descend | slack.py:237-247 | recursion restores the stack and enters only directory addresses below it, keeping paths duplicate-free |
| Walker.WalkEntries | slack.py:232-247 | iterating a directory's entries leaves the stack unchanged, every descendant visit extends it, and without the recursive option no subdirectory is entered; an escaping exception is never the root-open error and keeps the first entry's rows at the head of what was printed |
| Walker.PathsWithinDirs | slack.py:237-245 | each stack reached is made of distinct directory addresses, so its length is at most the number of directories |
| Walker.WalkFrom | slack.py:224-249 | the walk from `[]` ends with the stack empty, never pushes an address already on the stack, nests no deeper than the number of directories, and fails at the root, with nothing printed, exactly when the root cannot be opened |
| Walker.RuntimeErrorContinues | slack.py:238-247 | a RuntimeError opening a subdirectory adds one error marker and the siblings are still walked |
| Walker.IOErrorAborts | slack.py:238-247 | an IOError opening a subdirectory escapes the handler and ends the walk, with the subdirectory's own rows already printed |
| Walker.DescendFailureKeepsRows | slack.py:232-247 | when descending into an entry raises, the entry's own rows stay printed ahead of what the descent printed |
| Walker.CrashKeepsEarlierRows | slack.py:232-247 | when a later sibling raises, the rows of the earlier entry and of its descendants stay printed ahead of the sibling's |
| Walker.HardLinkedDirectoryEnteredTwice | slack.py:242-245 | a directory reached through two sibling hard links is entered twice |

## Left out

- Option parsing, opening the image and the filesystem, and the header
  lines (lines 24-59 and 252-270) are command-line and I/O plumbing. The
  parsed options are `Tsk.Options`. The opened filesystem is `Tsk.Filesystem`.
- `hex_pp` and `FILTER` (lines 95-107) only print a dump. In hex encoding
  the model accumulates nothing, which is what the code does.
- The exact text of the printed lines (lines 219 and 221) is left out. The
  model records which rows are printed, with their fields and depth, but
  not their column layout or indentation string.
- The binding's internals are not modelled: `open_meta`, `read_random`,
  `as_directory`, and attribute and run iteration. `get_slack` reopens
  the file by inode, and the model assumes this yields the entry's own
  attributes and size. Likewise, the address a directory pushes on entry
  is taken to be the inode address it was opened from. An exception raised by `read_random` is not
  modelled: the read primitive is total.
- A zero block size (`ZeroDivisionError`) is excluded by the `BlockSize`
  type, since the library never reports one.
- The model uses unbounded integers; no 64-bit wrap-around of TSK offsets
  is modelled.
- The `Visit` trail (directories entered, each with the stack after its
  push) is an observation the model adds. It lets the traversal
  invariants be stated.
- A `RuntimeError` raised inside a nested `list_directory` call, such as
  Python's recursion limit on a tree about 1000 levels deep, is caught at
  line 246 without popping the addresses pushed at line 230. The walk would
  then go on with a longer stack. The model's only `RuntimeError` source is
  `as_directory`, so its stack-restoration contract does not cover this.
- When the run ends on an uncaught exception, no stack is returned. The
  code has no `finally`, and the program stops there. The rows printed
  before the exception are returned with it (`Walker.Aborted`); the
  traceback text is not modelled.

=== FILE: classify.dfy ===
/**
 Type-code lookups, the "name/meta" type string, the directory and
 regular-file tests, the attribute allow-list and the display name.
 */
module Classify {
  import opened Wrappers
  import opened Tsk

  /** `FILE_TYPE_LOOKUP.get(code, '-')`: one letter per name-type code. */
  function FileTypeLookup(code: int): (c: char)
    ensures c == '-' <==> !(NameFifo <= code <= NameVirt)
  {
    if code == NameUndef then '-'
    else if code == NameFifo then 'p'
    else if code == NameChr then 'c'
    else if code == NameDir then 'd'
    else if code == NameBlk then 'b'
    else if code == NameReg then 'r'
    else if code == NameLnk then 'l'
    else if code == NameSock then 'h'
    else if code == NameShad then 's'
    else if code == NameWht then 'w'
    else if code == NameVirt then 'v'
    else '-'
  }

  /** The name-type code a letter of the name table stands for. */
  function NameCodeOf(c: char): Option<int> {
    match c
    case 'p' => Some(NameFifo)
    case 'c' => Some(NameChr)
    case 'd' => Some(NameDir)
    case 'b' => Some(NameBlk)
    case 'r' => Some(NameReg)
    case 'l' => Some(NameLnk)
    case 'h' => Some(NameSock)
    case 's' => Some(NameShad)
    case 'w' => Some(NameWht)
    case 'v' => Some(NameVirt)
    case _ => None
  }

  /** Every letter other than the default identifies its code: the name table
      is injective, so comparing letters compares codes. */
  lemma FileTypeLookupInvertible(code: int)
    ensures FileTypeLookup(code) != '-' ==> NameCodeOf(FileTypeLookup(code)) == Some(code)
    ensures FileTypeLookup(code) == '-' ==> NameCodeOf(FileTypeLookup(code)) == None
  {
  }

  /** `META_TYPE_LOOKUP.get(code, '-')`: one letter per meta-type code. */
  function MetaTypeLookup(code: int): (c: char)
    ensures c == '-' <==> !(MetaReg <= code <= MetaVirt)
  {
    if code == MetaReg then 'r'
    else if code == MetaDir then 'd'
    else if code == MetaFifo then 'p'
    else if code == MetaChr then 'c'
    else if code == MetaBlk then 'b'
    else if code == MetaLnk then 'h'
    else if code == MetaShad then 's'
    else if code == MetaSock then 's'
    else if code == MetaWht then 'w'
    else if code == MetaVirt then 'v'
    else '-'
  }

  /** The meta-type codes a letter of the meta table stands for; `'s'` stands
      for two. */
  function MetaCodesOf(c: char): set<int> {
    match c
    case 'r' => {MetaReg}
    case 'd' => {MetaDir}
    case 'p' => {MetaFifo}
    case 'c' => {MetaChr}
    case 'b' => {MetaBlk}
    case 'h' => {MetaLnk}
    case 's' => {MetaShad, MetaSock}
    case 'w' => {MetaWht}
    case 'v' => {MetaVirt}
    case _ => {}
  }

  /** Each letter other than the default is printed for exactly the codes it
      stands for. */
  lemma MetaTypeLookupCodes(code: int, c: char)
    requires c != '-'
    ensures MetaTypeLookup(code) == c <==> code in MetaCodesOf(c)
  {
  }

  /** The meta table is not injective and disagrees with the name table on
      links and sockets: a symbolic link reads "l/h", a socket "h/s". */
  lemma MetaTableQuirks()
    ensures MetaTypeLookup(MetaShad) == MetaTypeLookup(MetaSock) == 's'
    ensures MetaTypeLookup(MetaLnk) == FileTypeLookup(NameSock) == 'h'
    ensures FileTypeLookup(NameLnk) == 'l'
  {
  }

  /** `"%s/%s" % (name_type, meta_type)`, each part '-' when its record is
      missing. */
  function TypeString(name: Option<NameInfo>, meta: Option<MetaInfo>): (s: string)
    ensures |s| == 3 && s[1] == '/'
    ensures s[0] == '-' <==> name.None? || !(NameFifo <= name.value.typeCode <= NameVirt)
    ensures s[2] == '-' <==> meta.None? || !(MetaReg <= meta.value.typeCode <= MetaVirt)
    ensures name.Some? && s[0] != '-' ==> NameCodeOf(s[0]) == Some(name.value.typeCode)
    ensures meta.Some? && s[2] != '-' ==> meta.value.typeCode in MetaCodesOf(s[2])
  {
    var nameType :=
      if name.Some? then
        FileTypeLookupInvertible(name.value.typeCode);
        FileTypeLookup(name.value.typeCode)
      else '-';
    var metaType := if meta.Some? then MetaTypeLookup(meta.value.typeCode) else '-';
    [nameType, '/', metaType]
  }

  /** `is_fs_directory`: the name-type letter is the directory letter. */
  function IsFsDirectory(name: NameInfo): (b: bool)
    ensures b <==> name.typeCode == NameDir
  {
    FileTypeLookupInvertible(name.typeCode);
    FileTypeLookup(name.typeCode) == FileTypeLookup(NameDir)
  }

  /** `is_fs_regfile`: the name-type letter is the regular-file letter. */
  function IsFsRegfile(name: NameInfo): (b: bool)
    ensures b <==> name.typeCode == NameReg
    ensures b ==> !IsFsDirectory(name)
  {
    FileTypeLookupInvertible(name.typeCode);
    FileTypeLookup(name.typeCode) == FileTypeLookup(NameReg)
  }

  /** `NTFS_TYPES_TO_PRINT`: the attribute types that produce records. */
  const TypesToPrint: seq<int> := [AttrNtfsIdxRoot, AttrNtfsData, AttrDefault]

  function IsPrintable(attrType: int): (b: bool)
    ensures b <==> attrType == AttrDefault || attrType == AttrNtfsData || attrType == AttrNtfsIdxRoot
  {
    attrType in TypesToPrint
  }

  /** An attribute name that is shown after the entry name: present and not
      one of the default stream markers. */
  predicate IsStreamName(attrName: string) {
    attrName != "" && attrName != "$Data" && attrName != "$I30"
  }

  /** The record's file name: `name:attr` for a named stream, else `name`. */
  function DisplayName(entryName: string, attrName: string): (r: string)
    ensures |r| >= |entryName| && r[..|entryName|] == entryName
    ensures r == entryName <==> !IsStreamName(attrName)
    ensures r != entryName ==> r[|entryName|] == ':' && r[|entryName| + 1..] == attrName
  {
    if IsStreamName(attrName) then
      var r := entryName + ":" + attrName;
      assert r[|entryName| + 1..] == attrName;
      r
    else entryName
  }

  /** The self and parent entries, which never produce a record. */
  predicate IsDotName(s: string) {
    s == "." || s == ".."
  }
}

=== FILE: hexcodec.dfy ===
/**
 The two-hex-digit codec `get_slack` uses to carry non-zero slack bytes:
 `"%02x" % ord(c)` on the way in and `chr(int(b, 16))` on the way out.
 */
module HexCodec {
  import opened Tsk

  predicate IsHexDigit(c: char) {
    ('0' <= c <= '9') || ('a' <= c <= 'f') || ('A' <= c <= 'F')
  }

  predicate IsLowerHexDigit(c: char) {
    ('0' <= c <= '9') || ('a' <= c <= 'f')
  }

  /** A string `int(s, 16)` reads as one byte: exactly two hex digits. */
  predicate IsHexPair(s: string) {
    |s| == 2 && IsHexDigit(s[0]) && IsHexDigit(s[1])
  }

  /** The lower-case digit `%x` prints for a value below 16. */
  function HexDigit(d: nat): (c: char)
    requires d < 16
    ensures IsLowerHexDigit(c)
  {
    if d < 10 then ('0' as int + d) as char else ('a' as int + d - 10) as char
  }

  /** The value `int(_, 16)` gives a single hex digit, either case. */
  function DigitValue(c: char): (v: nat)
    requires IsHexDigit(c)
    ensures v < 16
    ensures IsLowerHexDigit(c) ==> HexDigit(v) == c
  {
    if '0' <= c <= '9' then c as int - '0' as int
    else if 'a' <= c <= 'f' then c as int - 'a' as int + 10
    else c as int - 'A' as int + 10
  }

  /** `"%02x" % b`: two lower-case digits, zero-padded. */
  function EncodeHex(b: Byte): (s: string)
    ensures IsHexPair(s) && IsLowerHexDigit(s[0]) && IsLowerHexDigit(s[1])
  {
    [HexDigit(b / 16), HexDigit(b % 16)]
  }

  /** `chr(int(s, 16))` on a two-digit string. */
  function DecodeHex(s: string): (b: Byte)
    requires IsHexPair(s)
    ensures b / 16 == DigitValue(s[0]) && b % 16 == DigitValue(s[1])
    ensures IsLowerHexDigit(s[0]) && IsLowerHexDigit(s[1]) ==> EncodeHex(b) == s
  {
    DigitValue(s[0]) * 16 + DigitValue(s[1])
  }

  /** Decoding undoes encoding. */
  lemma DecodeEncode(b: Byte)
    ensures DecodeHex(EncodeHex(b)) == b
  {
  }

  /** Re-encoding a decoded lower-case pair gives back the same string. */
  lemma EncodeDecode(s: string)
    requires IsHexPair(s) && IsLowerHexDigit(s[0]) && IsLowerHexDigit(s[1])
    ensures EncodeHex(DecodeHex(s)) == s
  {
    var hi, lo := DigitValue(s[0]), DigitValue(s[1]);
    assert (hi * 16 + lo) / 16 == hi && (hi * 16 + lo) % 16 == lo;
  }

  /** The bytes of `bs` other than 0x00, in their original order. */
  function NonZero(bs: seq<Byte>): (r: seq<Byte>)
    ensures |r| <= |bs|
    ensures forall i :: 0 <= i < |r| ==> r[i] != 0
  {
    if |bs| == 0 then []
    else (if bs[0] != 0 then [bs[0]] else []) + NonZero(bs[1..])
  }

  /** Filtering commutes with concatenation, so chunk-by-chunk filtering
      equals filtering everything that was read. */
  lemma {:induction false} NonZeroAppend(a: seq<Byte>, b: seq<Byte>)
    ensures NonZero(a + b) == NonZero(a) + NonZero(b)
  {
    if |a| == 0 {
      assert a + b == b;
    } else {
      assert (a + b)[1..] == a[1..] + b;
      NonZeroAppend(a[1..], b);
    }
  }

  /** Exactly the zero bytes are dropped: the filter keeps every other byte
      with its multiplicity. */
  lemma {:induction false} NonZeroMultiset(bs: seq<Byte>)
    ensures multiset(NonZero(bs)) == multiset(bs)[0 := 0]
  {
    if |bs| > 0 {
      NonZeroMultiset(bs[1..]);
      assert bs == [bs[0]] + bs[1..];
    }
  }

  /** The number of kept bytes is the number of non-zero bytes. */
  lemma NonZeroCount(bs: seq<Byte>)
    ensures |NonZero(bs)| == |bs| - multiset(bs)[0]
  {
    NonZeroMultiset(bs);
    assert |multiset(bs)| == |multiset(bs)[0 := 0]| + multiset(bs)[0];
  }

  /** Filtering a sequence with no zero byte changes nothing; in particular
      the filter is idempotent. */
  lemma {:induction false} NonZeroFixes(bs: seq<Byte>)
    requires forall i :: 0 <= i < |bs| ==> bs[i] != 0
    ensures NonZero(bs) == bs
  {
    if |bs| > 0 {
      NonZeroFixes(bs[1..]);
    }
  }

  /** Encodes each byte of `bs` as its hex pair. */
  function EncodeAll(bs: seq<Byte>): (ss: seq<string>)
    ensures |ss| == |bs|
    ensures forall i :: 0 <= i < |ss| ==> IsHexPair(ss[i]) && IsLowerHexDigit(ss[i][0]) && IsLowerHexDigit(ss[i][1])
  {
    seq(|bs|, i requires 0 <= i < |bs| => EncodeHex(bs[i]))
  }

  /** Decodes each hex pair of `ss` back to a byte. */
  function DecodeAll(ss: seq<string>): (bs: seq<Byte>)
    requires forall i :: 0 <= i < |ss| ==> IsHexPair(ss[i])
    ensures |bs| == |ss|
    ensures forall i :: 0 <= i < |bs| ==>
      IsHexPair(ss[i]) && bs[i] / 16 == DigitValue(ss[i][0]) && bs[i] % 16 == DigitValue(ss[i][1])
  {
    seq(|ss|, i requires 0 <= i < |ss| => DecodeHex(ss[i]))
  }

  lemma EncodeAllAppend(a: seq<Byte>, b: seq<Byte>)
    ensures EncodeAll(a + b) == EncodeAll(a) + EncodeAll(b)
  {
  }

  /** Decoding the encoded strings yields the original bytes. */
  lemma DecodeAllEncodeAll(bs: seq<Byte>)
    ensures DecodeAll(EncodeAll(bs)) == bs
  {
    forall i | 0 <= i < |bs|
      ensures DecodeAll(EncodeAll(bs))[i] == bs[i]
    {
      DecodeEncode(bs[i]);
    }
  }

  /** Re-encoding decoded lower-case strings reproduces them exactly. */
  lemma EncodeAllDecodeAll(ss: seq<string>)
    requires forall i :: 0 <= i < |ss| ==> IsHexPair(ss[i]) && IsLowerHexDigit(ss[i][0]) && IsLowerHexDigit(ss[i][1])
    ensures EncodeAll(DecodeAll(ss)) == ss
  {
    forall i | 0 <= i < |ss|
      ensures EncodeAll(DecodeAll(ss))[i] == ss[i]
    {
      EncodeDecode(ss[i]);
    }
  }
}

=== FILE: scan.dfy ===
/**
 `scan_inode`: classify one directory entry, fetch its slack when it is a
 regular file, and decide which (entry, attribute) records are printed.
 */
module Scan {
  import opened Wrappers
  import opened Tsk
  import opened Slack
  import opened HexCodec
  import opened Classify

  /** One printed line, without its exact layout. */
  datatype Record =
    | ListRow(typeStr: string, filename: string, slack: SlackFields)
    | ExtractRow(typeStr: string, filename: string, slack: SlackFields, depth: nat)
    | OpenFailed

  /** Python 2's `slack_size > 0`: the empty string left in place for a
      non-regular file compares greater than every number. */
  function SizeAboveZero(slack: SlackFields): (b: bool)
    ensures slack.NoSlack? ==> b
    ensures !b <==> !slack.NoSlack? && slack.filled == 0
  {
    match slack
    case NoSlack => true
    case Sizes(_, filled) => filled > 0
    case Content(_, filled) => filled > 0
  }

  /** Whether an entry's records are printed at all: always in list mode,
      otherwise when the extract test passes or the entry is a directory. */
  predicate Emits(mode: Mode, slack: SlackFields, isDir: bool) {
    mode == List || (mode == Extract && SizeAboveZero(slack)) || isDir
  }

  /** The body of `for attr in f` for one attribute. */
  function AttrRecord(opts: Options, a: Attribute, typeStr: string, entryName: string,
                      slack: SlackFields, isDir: bool, depth: nat): (r: Option<Record>)
    ensures r.Some? <==>
      IsPrintable(a.attrType) && !IsDotName(DisplayName(entryName, a.name)) && Emits(opts.mode, slack, isDir)
    ensures r.Some? ==>
      && !r.value.OpenFailed?
      && r.value.filename == DisplayName(entryName, a.name)
      && r.value.typeStr == typeStr
      && r.value.slack == slack
      && (r.value.ListRow? <==> opts.mode == List)
      && (r.value.ExtractRow? ==> r.value.depth == depth)
  {
    if !IsPrintable(a.attrType) then None
    else
      var filename := DisplayName(entryName, a.name);
      if IsDotName(filename) then None
      else if opts.mode == List then Some(ListRow(typeStr, filename, slack))
      else if (opts.mode == Extract && SizeAboveZero(slack)) || isDir then
        Some(ExtractRow(typeStr, filename, slack, depth))
      else None
  }

  /** The records of all attributes, in attribute order. */
  function AttrRecords(opts: Options, attrs: seq<Attribute>, typeStr: string, entryName: string,
                       slack: SlackFields, isDir: bool, depth: nat): (recs: seq<Record>)
    ensures |recs| <= |attrs|
    ensures forall i :: 0 <= i < |recs| ==>
      && !recs[i].OpenFailed?
      && !IsDotName(recs[i].filename)
      && recs[i].typeStr == typeStr
      && recs[i].slack == slack
  {
    if |attrs| == 0 then []
    else
      var first := match AttrRecord(opts, attrs[0], typeStr, entryName, slack, isDir, depth)
        case Some(rec) => [rec]
        case None => [];
      first + AttrRecords(opts, attrs[1..], typeStr, entryName, slack, isDir, depth)
  }

  /** The display names of the printable attributes, `.` and `..` left out. */
  function ShownNames(attrs: seq<Attribute>, entryName: string): seq<string> {
    if |attrs| == 0 then []
    else
      var n := DisplayName(entryName, attrs[0].name);
      (if IsPrintable(attrs[0].attrType) && !IsDotName(n) then [n] else []) + ShownNames(attrs[1..], entryName)
  }

  /** One row per name, in the mode's row shape. */
  function RowsFor(opts: Options, names: seq<string>, typeStr: string, slack: SlackFields, depth: nat)
    : seq<Record>
  {
    if |names| == 0 then []
    else
      var row := if opts.mode == List then ListRow(typeStr, names[0], slack)
                 else ExtractRow(typeStr, names[0], slack, depth);
      [row] + RowsFor(opts, names[1..], typeStr, slack, depth)
  }

  /** The emission decision is made once per entry: either every shown name
      becomes a row, or none does. */
  lemma {:induction false} AttrRecordsShape(opts: Options, attrs: seq<Attribute>, typeStr: string, entryName: string,
                                            slack: SlackFields, isDir: bool, depth: nat)
    ensures AttrRecords(opts, attrs, typeStr, entryName, slack, isDir, depth)
         == if Emits(opts.mode, slack, isDir) then RowsFor(opts, ShownNames(attrs, entryName), typeStr, slack, depth)
            else []
  {
    if |attrs| > 0 {
      AttrRecordsShape(opts, attrs[1..], typeStr, entryName, slack, isDir, depth);
      var n := DisplayName(entryName, attrs[0].name);
      if Emits(opts.mode, slack, isDir) && IsPrintable(attrs[0].attrType) && !IsDotName(n) {
        var rest := ShownNames(attrs[1..], entryName);
        assert ShownNames(attrs, entryName) == [n] + rest;
        assert ([n] + rest)[1..] == rest;
      } else if Emits(opts.mode, slack, isDir) {
        assert ShownNames(attrs, entryName) == ShownNames(attrs[1..], entryName);
        assert AttrRecord(opts, attrs[0], typeStr, entryName, slack, isDir, depth).None?;
      } else {
        assert AttrRecord(opts, attrs[0], typeStr, entryName, slack, isDir, depth).None?;
      }
    }
  }

  /** The slack fields of an entry: `get_slack` of its inode for a regular
      file, the two empty strings otherwise. */
  function EntrySlack(opts: Options, fs: Filesystem, f: Entry): (slack: SlackFields)
    requires f.meta.Some? && f.name.Some?
    ensures slack.NoSlack? <==> !IsFsRegfile(f.name.value)
    ensures var bytes := Flatten(SlackReads(fs.blockSize, fs.slackRead(f.meta.value.addr), f.attrs, f.meta.value.size));
      IsFsRegfile(f.name.value) ==>
        && slack.filled == (if opts.encoding == Ascii then |NonZero(bytes)| else 0)
        && (opts.mode == List ==> slack == Sizes(SlackSize(f.meta.value.size, fs.blockSize), slack.filled))
        && (opts.mode != List ==> slack == Content(if opts.encoding == Ascii then NonZero(bytes) else [], slack.filled))
  {
    if IsFsRegfile(f.name.value) then
      var read := fs.slackRead(f.meta.value.addr);
      NonZeroCount(Flatten(SlackReads(fs.blockSize, read, f.attrs, f.meta.value.size)));
      GetSlack(opts, fs.blockSize, read, f.attrs, f.meta.value.size)
    else NoSlack
  }

  /** `scan_inode(f, depth)`. */
  function ScanInode(opts: Options, fs: Filesystem, f: Entry, depth: nat): (r: Result<seq<Record>, Crash>)
    ensures r.Success? <==> f.meta.Some? && f.name.Some?
    ensures r.Failure? ==> r.error == if f.meta.None? then MissingMeta else MissingName
    ensures r.Success? ==> |r.value| <= |f.attrs|
    ensures r.Success? ==> forall i :: 0 <= i < |r.value| ==>
      && !r.value[i].OpenFailed?
      && !IsDotName(r.value[i].filename)
      && r.value[i].typeStr == TypeString(f.name, f.meta)
  {
    if f.meta.None? then Failure(MissingMeta)
    else if f.name.None? then Failure(MissingName)
    else
      var name := f.name.value;
      Success(AttrRecords(opts, f.attrs, TypeString(f.name, f.meta), name.name,
                          EntrySlack(opts, fs, f), IsFsDirectory(name), depth))
  }

  lemma {:induction false} RowsForLength(opts: Options, names: seq<string>, typeStr: string, slack: SlackFields, depth: nat)
    ensures |RowsFor(opts, names, typeStr, slack, depth)| == |names|
  {
    if |names| > 0 {
      RowsForLength(opts, names[1..], typeStr, slack, depth);
    }
  }

  /** List mode prints one row per shown name of every entry it can scan. */
  lemma ListModeRowPerName(opts: Options, fs: Filesystem, f: Entry, depth: nat)
    requires opts.mode == List && f.meta.Some? && f.name.Some?
    ensures |ScanInode(opts, fs, f, depth).value| == |ShownNames(f.attrs, f.name.value.name)|
  {
    var name := f.name.value;
    AttrRecordsShape(opts, f.attrs, TypeString(f.name, f.meta), name.name, EntrySlack(opts, fs, f), IsFsDirectory(name), depth);
    RowsForLength(opts, ShownNames(f.attrs, name.name), TypeString(f.name, f.meta), EntrySlack(opts, fs, f), depth);
  }

  /** Extract mode does not suppress entries that are neither regular files
      nor directories: their empty slack size passes the `> 0` test. */
  lemma ExtractModeShowsNonRegular(opts: Options, fs: Filesystem, f: Entry, depth: nat)
    requires opts.mode == Extract && f.meta.Some? && f.name.Some? && !IsFsRegfile(f.name.value)
    ensures |ScanInode(opts, fs, f, depth).value| == |ShownNames(f.attrs, f.name.value.name)|
  {
    var name := f.name.value;
    AttrRecordsShape(opts, f.attrs, TypeString(f.name, f.meta), name.name, EntrySlack(opts, fs, f), IsFsDirectory(name), depth);
    RowsForLength(opts, ShownNames(f.attrs, name.name), TypeString(f.name, f.meta), EntrySlack(opts, fs, f), depth);
  }

  /** In extract mode a regular file prints something exactly when some
      non-zero slack byte was found and it has a shown name. */
  lemma ExtractModeRegularFile(opts: Options, fs: Filesystem, f: Entry, depth: nat)
    requires opts.mode == Extract && f.meta.Some? && f.name.Some? && IsFsRegfile(f.name.value)
    ensures ScanInode(opts, fs, f, depth).value == []
        <==> EntrySlack(opts, fs, f).filled == 0 || ShownNames(f.attrs, f.name.value.name) == []
  {
    var name := f.name.value;
    AttrRecordsShape(opts, f.attrs, TypeString(f.name, f.meta), name.name, EntrySlack(opts, fs, f), IsFsDirectory(name), depth);
    RowsForLength(opts, ShownNames(f.attrs, name.name), TypeString(f.name, f.meta), EntrySlack(opts, fs, f), depth);
  }

  /** The shown names of an entry called `.` or `..` whose attributes carry
      no stream name are empty. */
  lemma {:induction false} DotEntryShowsNothing(attrs: seq<Attribute>, entryName: string)
    requires IsDotName(entryName)
    requires forall i :: 0 <= i < |attrs| ==> !IsStreamName(attrs[i].name)
    ensures ShownNames(attrs, entryName) == []
  {
    if |attrs| > 0 {
      DotEntryShowsNothing(attrs[1..], entryName);
    }
  }
}

=== FILE: slack.dfy ===
/**
 `get_slack`: locate the last block of a regular file, size its slack region,
 read that region through the slack-flagged read primitive and account for
 the non-zero bytes found there.
 */
module Slack {
  import opened Tsk
  import opened HexCodec

  /** The pair `scan_inode` binds to `slack_data, slack_size`:
      - `NoSlack`: both left as `''` (the file is not regular);
      - `Sizes`: list mode, `(s_size, len(slack_bytes))`;
      - `Content`: any other mode, `(decoded bytes, len(slack_bytes))`. */
  datatype SlackFields =
    | NoSlack
    | Sizes(regionSize: nat, filled: nat)
    | Content(bytes: seq<Byte>, filled: nat)

  /** Every run of every attribute, in iteration order. */
  function AllRuns(attrs: seq<Attribute>): seq<Run> {
    if |attrs| == 0 then [] else attrs[0].runs + AllRuns(attrs[1..])
  }

  /** The inner loop `for run in attr: l_offset = run.offset`: the offset
      of the last run, or the incoming value when the attribute has none. */
  function RunsFold(runs: seq<Run>, acc: nat): (r: nat)
    ensures r == if |runs| == 0 then acc else runs[|runs| - 1].offset
  {
    if |runs| == 0 then acc else RunsFold(runs[1..], runs[0].offset)
  }

  /** The outer loop `for attr in f`, threading `l_offset`: the offset of
      the last run of all attributes, or the incoming value when none has
      a run. */
  function AttrsFold(attrs: seq<Attribute>, acc: nat): (r: nat)
    ensures var all := AllRuns(attrs);
      r == if |all| == 0 then acc else all[|all| - 1].offset
  {
    if |attrs| == 0 then acc else AttrsFold(attrs[1..], RunsFold(attrs[0].runs, acc))
  }

  /** `l_offset` after both loops: the offset of the last run met, in
      iteration order over all attributes, or 0 when there is none. */
  function LastRunOffset(attrs: seq<Attribute>): (off: nat)
    ensures var all := AllRuns(attrs);
      off == if |all| == 0 then 0 else all[|all| - 1].offset
  {
    AttrsFold(attrs, 0)
  }

  /** The offset kept is the last one, not the largest. */
  lemma LastRunOffsetIsNotMaximum()
    ensures LastRunOffset([Attribute(AttrDefault, "", [Run(5, 1), Run(2, 1)])]) == 2
  {
    var attrs := [Attribute(AttrDefault, "", [Run(5, 1), Run(2, 1)])];
    assert AllRuns(attrs[1..]) == [];
    assert AllRuns(attrs) == [Run(5, 1), Run(2, 1)];
  }

  lemma MulAtLeast(k: int, bs: BlockSize)
    requires k >= 1
    ensures k * bs >= bs
  {
    assert k * bs == (k - 1) * bs + bs;
    assert (k - 1) * bs >= 0;
  }

  /** Euclidean division is determined by quotient and remainder. */
  lemma DivModUnique(x: int, bs: BlockSize, q: int, m: int)
    requires x == q * bs + m && 0 <= m < bs
    ensures x / bs == q && x % bs == m
  {
    var q', m' := x / bs, x % bs;
    assert x == q' * bs + m';
    assert q * bs - q' * bs == (q - q') * bs;
    assert (q - q') * bs == m' - m;
    if q > q' {
      MulAtLeast(q - q', bs);
    } else if q < q' {
      assert (q' - q) * bs == m - m';
      MulAtLeast(q' - q, bs);
    }
  }

  /** `l_block`: the byte offset of block `l_offset - 1`, clamped at 0. */
  function LastBlockByte(lOffset: nat, bs: BlockSize): (r: nat)
    ensures r % bs == 0
    ensures r == 0 <==> lOffset <= 1
    ensures lOffset >= 1 ==> r + bs == lOffset * bs
  {
    var b := (lOffset - 1) * bs;
    if b < 0 then 0
    else
      DivModUnique(b, bs, lOffset - 1, 0);
      b
  }

  /** `s_size`: the bytes from the logical end of the file to the next block
      boundary; a whole block when the size is block-aligned, zero included. */
  function SlackSize(size: nat, bs: BlockSize): (s: nat)
    ensures 0 < s <= bs
    ensures s == bs <==> size % bs == 0
    ensures (size + s) % bs == 0
  {
    DivModUnique(size + bs - size % bs, bs, size / bs + 1, 0);
    bs - size % bs
  }

  /** All chunks concatenated. */
  function Flatten(chunks: seq<seq<Byte>>): seq<Byte> {
    if |chunks| == 0 then [] else chunks[0] + Flatten(chunks[1..])
  }

  /**
   The read loop of `get_slack`: while `l_block < size`, read up to `sSize`
   bytes at `l_block + ldSize`, stop on an empty read, otherwise advance
   `l_block` by the number of bytes returned. Yields the chunks read.
   */
  function ReadChunks(read: (int, nat) -> seq<Byte>, lBlock: int, size: nat, ldSize: nat, sSize: nat)
    : (chunks: seq<seq<Byte>>)
    ensures forall i :: 0 <= i < |chunks| ==> |chunks[i]| > 0
    ensures lBlock >= size ==> chunks == []
    ensures lBlock + |Flatten(chunks)| >= size || |read(lBlock + |Flatten(chunks)| + ldSize, sSize)| == 0
    decreases size - lBlock
  {
    if lBlock >= size then []
    else
      var data := read(lBlock + ldSize, sSize);
      if |data| == 0 then []
      else
        var rest := ReadChunks(read, lBlock + |data|, size, ldSize, sSize);
        assert ([data] + rest)[1..] == rest;
        [data] + rest
  }

  /** Chunk `i` of a trace: issued once `l_block` had advanced by the bytes
      of the chunks before it, while still below `size`, and non-empty. */
  ghost predicate ReadAt(read: (int, nat) -> seq<Byte>, l0: int, size: nat, ldSize: nat, sSize: nat,
                         chunks: seq<seq<Byte>>, i: nat)
    requires i < |chunks|
  {
    var at := l0 + |Flatten(chunks[..i])|;
    at < size && |chunks[i]| > 0 && chunks[i] == read(at + ldSize, sSize)
  }

  /** An independent description of what the loop does: every chunk is a
      read issued at the offset reached so far, and after the last chunk
      either `l_block` reached `size` or the next read came back empty. */
  ghost predicate IsReadTrace(read: (int, nat) -> seq<Byte>, l0: int, size: nat, ldSize: nat, sSize: nat,
                              chunks: seq<seq<Byte>>)
  {
    && (forall i :: 0 <= i < |chunks| ==> ReadAt(read, l0, size, ldSize, sSize, chunks, i))
    && (l0 + |Flatten(chunks)| >= size || |read(l0 + |Flatten(chunks)| + ldSize, sSize)| == 0)
  }

  lemma FlattenPrefixCons(data: seq<Byte>, rest: seq<seq<Byte>>, i: nat)
    requires 0 < i <= |rest| + 1
    ensures |Flatten(([data] + rest)[..i])| == |data| + |Flatten(rest[..i - 1])|
  {
    assert ([data] + rest)[..i] == [data] + rest[..i - 1];
    assert ([data] + rest[..i - 1])[1..] == rest[..i - 1];
  }

  /** Chunk `j + 1` of `[data] + rest` is read where chunk `j` of `rest` is
      read from the advanced offset. */
  lemma ReadAtCons(read: (int, nat) -> seq<Byte>, l0: int, size: nat, ldSize: nat, sSize: nat,
                   data: seq<Byte>, rest: seq<seq<Byte>>, j: nat)
    requires j < |rest|
    ensures ReadAt(read, l0 + |data|, size, ldSize, sSize, rest, j)
        <==> ReadAt(read, l0, size, ldSize, sSize, [data] + rest, j + 1)
  {
    FlattenPrefixCons(data, rest, j + 1);
    assert ([data] + rest)[j + 1] == rest[j];
  }

  /** A successful read followed by a trace from the advanced offset is a
      trace, and conversely. */
  lemma TraceCons(read: (int, nat) -> seq<Byte>, l0: int, size: nat, ldSize: nat, sSize: nat,
                  data: seq<Byte>, rest: seq<seq<Byte>>)
    requires l0 < size && |data| > 0 && data == read(l0 + ldSize, sSize)
    ensures IsReadTrace(read, l0 + |data|, size, ldSize, sSize, rest)
        <==> IsReadTrace(read, l0, size, ldSize, sSize, [data] + rest)
  {
    var chunks := [data] + rest;
    assert chunks[..0] == [];
    assert ReadAt(read, l0, size, ldSize, sSize, chunks, 0);
    assert chunks[1..] == rest;
    assert |Flatten(chunks)| == |data| + |Flatten(rest)|;
    var l1 := l0 + |data|;
    forall j: nat | j < |rest|
      ensures ReadAt(read, l1, size, ldSize, sSize, rest, j)
          <==> ReadAt(read, l0, size, ldSize, sSize, chunks, j + 1)
    {
      ReadAtCons(read, l0, size, ldSize, sSize, data, rest, j);
    }
    if IsReadTrace(read, l0 + |data|, size, ldSize, sSize, rest) {
      forall i: nat | 0 < i < |chunks|
        ensures ReadAt(read, l0, size, ldSize, sSize, chunks, i)
      {
        assert ReadAt(read, l0 + |data|, size, ldSize, sSize, rest, i - 1);
      }
    }
    if IsReadTrace(read, l0, size, ldSize, sSize, chunks) {
      forall j: nat | j < |rest|
        ensures ReadAt(read, l1, size, ldSize, sSize, rest, j)
      {
        assert ReadAt(read, l0, size, ldSize, sSize, chunks, j + 1);
      }
    }
  }

  /** The loop's chunks form a read trace. */
  lemma {:induction false} ReadChunksIsTrace(read: (int, nat) -> seq<Byte>, l0: int, size: nat, ldSize: nat, sSize: nat)
    ensures IsReadTrace(read, l0, size, ldSize, sSize, ReadChunks(read, l0, size, ldSize, sSize))
    decreases size - l0
  {
    if l0 < size && |read(l0 + ldSize, sSize)| > 0 {
      var data := read(l0 + ldSize, sSize);
      var rest := ReadChunks(read, l0 + |data|, size, ldSize, sSize);
      assert ReadChunks(read, l0, size, ldSize, sSize) == [data] + rest;
      ReadChunksIsTrace(read, l0 + |data|, size, ldSize, sSize);
      TraceCons(read, l0, size, ldSize, sSize, data, rest);
    }
  }

  /** Any read trace is the one the loop produces: the trace determines the
      loop's behaviour completely. */
  lemma {:induction false} TraceIsReadChunks(read: (int, nat) -> seq<Byte>, l0: int, size: nat, ldSize: nat, sSize: nat,
                                             chunks: seq<seq<Byte>>)
    requires IsReadTrace(read, l0, size, ldSize, sSize, chunks)
    ensures chunks == ReadChunks(read, l0, size, ldSize, sSize)
    decreases |chunks|
  {
    if |chunks| > 0 {
      assert chunks[..0] == [];
      assert ReadAt(read, l0, size, ldSize, sSize, chunks, 0);
      var data, rest := chunks[0], chunks[1..];
      assert chunks == [data] + rest;
      TraceCons(read, l0, size, ldSize, sSize, data, rest);
      TraceIsReadChunks(read, l0 + |data|, size, ldSize, sSize, rest);
    }
  }

  /** The literal `slack_bytes` accumulation: per chunk, the "%02x" strings of
      its non-zero bytes in ascii encoding, nothing in any other encoding. */
  function SlackStrings(enc: Encoding, chunks: seq<seq<Byte>>): (ss: seq<string>)
    ensures forall i :: 0 <= i < |ss| ==> IsHexPair(ss[i])
    ensures enc != Ascii ==> ss == []
  {
    if |chunks| == 0 then []
    else (if enc == Ascii then EncodeAll(NonZero(chunks[0])) else []) + SlackStrings(enc, chunks[1..])
  }

  /** Chunk-wise accumulation equals encoding the non-zero bytes of
      everything read. */
  lemma {:induction false} SlackStringsFlatten(enc: Encoding, chunks: seq<seq<Byte>>)
    ensures SlackStrings(enc, chunks) == if enc == Ascii then EncodeAll(NonZero(Flatten(chunks))) else []
  {
    if |chunks| > 0 && enc == Ascii {
      SlackStringsFlatten(enc, chunks[1..]);
      NonZeroAppend(chunks[0], Flatten(chunks[1..]));
      EncodeAllAppend(NonZero(chunks[0]), NonZero(Flatten(chunks[1..])));
    }
  }

  /** Everything the slack loop of a file reads. */
  function SlackReads(bs: BlockSize, read: (int, nat) -> seq<Byte>, attrs: seq<Attribute>, size: nat)
    : seq<seq<Byte>>
  {
    ReadChunks(read, LastBlockByte(LastRunOffset(attrs), bs), size, size % bs, SlackSize(size, bs))
  }

  /**
   `get_slack` of a file with attributes `attrs` and logical size `size`,
   reading through `read`.
   */
  function GetSlack(opts: Options, bs: BlockSize, read: (int, nat) -> seq<Byte>, attrs: seq<Attribute>, size: nat)
    : (r: SlackFields)
    ensures !r.NoSlack?
    ensures r.Sizes? <==> opts.mode == List
    ensures r.Sizes? ==> r.regionSize == SlackSize(size, bs)
    ensures var bytes := Flatten(SlackReads(bs, read, attrs, size));
      && (opts.encoding == Ascii ==> r.filled == |bytes| - multiset(bytes)[0])
      && (opts.encoding != Ascii ==> r.filled == 0)
      && r.filled <= |bytes|
    ensures var bytes := Flatten(SlackReads(bs, read, attrs, size));
      r.Content? ==> |r.bytes| == r.filled && r.bytes == (if opts.encoding == Ascii then NonZero(bytes) else [])
    ensures size <= LastBlockByte(LastRunOffset(attrs), bs) ==> r.filled == 0
  {
    var lBlock := LastBlockByte(LastRunOffset(attrs), bs);
    var lDSize := size % bs;
    var sSize := bs - lDSize;
    var chunks := ReadChunks(read, lBlock, size, lDSize, sSize);
    var slackBytes := SlackStrings(opts.encoding, chunks);
    SlackStringsFlatten(opts.encoding, chunks);
    NonZeroCount(Flatten(chunks));
    DecodeAllEncodeAll(NonZero(Flatten(chunks)));
    if opts.mode == List then Sizes(sSize, |slackBytes|)
    else Content(DecodeAll(slackBytes), |slackBytes|)
  }

  /** A read primitive that always returns `len` bytes of value 1. */
  function AllOnes(offset: int, len: nat): seq<Byte> {
    seq(len, _ => 1)
  }

  /** The filled count is not bounded by the slack size: the loop keeps
      reading while `l_block < size`, here twice for an 8-byte file on
      4-byte blocks, reporting 8 filled bytes of a 4-byte slack region. */
  lemma FilledMayExceedSlackSize()
    ensures GetSlack(Options(List, Ascii, false), 4, AllOnes, [], 8) == Sizes(4, 8)
  {
    AllOnesReadTwice();
    var bytes := Flatten(SlackReads(4, AllOnes, [], 8));
    assert multiset(bytes)[0] == 0;
    var r := GetSlack(Options(List, Ascii, false), 4, AllOnes, [], 8);
    assert r.Sizes? && r.regionSize == 4 && r.filled == 8;
  }

  /** On 4-byte blocks an 8-byte file with no runs is read at `l_block` 0
      and again at 4, four bytes each time. */
  lemma AllOnesReadTwice()
    ensures Flatten(SlackReads(4, AllOnes, [], 8)) == [1, 1, 1, 1, 1, 1, 1, 1]
  {
    var c1 := AllOnes(0, 4);
    assert c1 == [1, 1, 1, 1];
    assert AllOnes(4, 4) == c1;
    assert LastBlockByte(LastRunOffset([]), 4) == 0;
    assert SlackSize(8, 4) == 4;
    var tail := ReadChunks(AllOnes, 4, 8, 0, 4);
    assert tail == [c1] + ReadChunks(AllOnes, 8, 8, 0, 4);
    assert tail == [c1];
    assert SlackReads(4, AllOnes, [], 8) == [c1, c1];
    assert [c1, c1][1..] == [c1];
    assert Flatten([c1]) == c1 + Flatten([]);
  }

  /** A file whose only run sits at block offset 10 on 512-byte blocks has
      `l_block = 4608`, beyond its 600 bytes, so nothing is read whatever
      the device holds: the region is 424 bytes and none of it is counted. */
  lemma RunAtOffsetTenReadsNothing(read: (int, nat) -> seq<Byte>)
    ensures GetSlack(Options(List, Ascii, false), 512, read, [Attribute(AttrDefault, "", [Run(10, 1)])], 600)
         == Sizes(424, 0)
  {
    var attrs := [Attribute(AttrDefault, "", [Run(10, 1)])];
    assert AllRuns(attrs[1..]) == [];
    assert AllRuns(attrs) == [Run(10, 1)];
  }

  /** A contiguous file whose one run starts at block 0 has `l_block = 0`.
      With 600 bytes on 512-byte blocks, `l_d_size = 88`, so the first read
      is issued at byte 88, inside the file's own data. */
  lemma ContiguousFileReadsData(read: (int, nat) -> seq<Byte>)
    ensures var chunks := SlackReads(512, read, [Attribute(AttrDefault, "", [Run(0, 2)])], 600);
      && (read(88, 424) == [] ==> chunks == [])
      && (read(88, 424) != [] ==> |chunks| > 0 && chunks[0] == read(88, 424))
  {
    var attrs := [Attribute(AttrDefault, "", [Run(0, 2)])];
    assert AllRuns(attrs[1..]) == [];
    assert AllRuns(attrs) == [Run(0, 2)];
  }
}

=== FILE: tsk.dfy ===
/**
 The data model: the records the filesystem-metadata library hands to the
 slack scanner. Type codes are the integer values of The Sleuth Kit's
 TSK_FS_NAME_TYPE_*, TSK_FS_META_TYPE_* and TSK_FS_ATTR_TYPE_* enumerations,
 which the scanner reads through `int(...)`.
 */
module Tsk {
  import opened Wrappers

  /** One byte of the image. */
  type Byte = b: int | 0 <= b < 256

  /** The filesystem's allocation unit in bytes; the library never reports zero. */
  type BlockSize = n: int | n > 0 witness 512

  // Name-type codes (type of the directory entry).
  const NameUndef: int := 0
  const NameFifo: int := 1
  const NameChr: int := 2
  const NameDir: int := 3
  const NameBlk: int := 4
  const NameReg: int := 5
  const NameLnk: int := 6
  const NameSock: int := 7
  const NameShad: int := 8
  const NameWht: int := 9
  const NameVirt: int := 10

  // Meta-type codes (type recorded in the inode).
  const MetaUndef: int := 0
  const MetaReg: int := 1
  const MetaDir: int := 2
  const MetaFifo: int := 3
  const MetaChr: int := 4
  const MetaBlk: int := 5
  const MetaLnk: int := 6
  const MetaShad: int := 7
  const MetaSock: int := 8
  const MetaWht: int := 9
  const MetaVirt: int := 10

  // Attribute-type codes.
  const AttrDefault: int := 0x01
  const AttrNtfsData: int := 0x80
  const AttrNtfsIdxRoot: int := 0x90

  /** A run of an attribute: `offset` is the run's block offset within the
      attribute's data, `len` its length in blocks. */
  datatype Run = Run(offset: nat, len: nat)

  /** A data stream of a file; an empty `name` stands for a missing one. */
  datatype Attribute = Attribute(attrType: int, name: string, runs: seq<Run>)

  /** The directory-entry record of a file. */
  datatype NameInfo = NameInfo(name: string, typeCode: int)

  /** The inode record of a file; `size` is its logical length in bytes. */
  datatype MetaInfo = MetaInfo(addr: nat, typeCode: int, size: nat)

  /** A file as yielded by iterating a directory; either record may be missing. */
  datatype Entry = Entry(name: Option<NameInfo>, meta: Option<MetaInfo>, attrs: seq<Attribute>)

  /** The two exception classes that opening an entry as a directory may raise. */
  datatype OpenError = RuntimeErr | IOErr

  /** What `as_directory()` yields for an inode address. */
  datatype DirSlot = Readable(entries: seq<Entry>) | Unreadable(err: OpenError)

  /**
   The opened filesystem, as far as the scanner sees it.
   - `dirs` answers directory opens; an address it does not hold fails with IOErr.
   - `slackRead(addr)(offset, len)` is the slack-flagged `read_random` of the file
     at inode `addr`: it may return any number of bytes, an empty result meaning
     nothing more could be read.
   */
  datatype Filesystem = Filesystem(
    blockSize: BlockSize,
    dirs: map<nat, DirSlot>,
    slackRead: nat -> (int, nat) -> seq<Byte>)

  /** Exceptions nothing catches; each ends the whole run. */
  datatype Crash =
    | MissingMeta     // `f.info.meta.addr` on an entry without an inode record
    | MissingName     // `f.info.name.type` on an entry without a name record
    | DirOpenIOError  // an IOError from `as_directory()`
    | RootOpenError   // the starting directory cannot be opened

  /** `--mode`: 'list', 'extract', or any other string. */
  datatype Mode = List | Extract | OtherMode

  /** `--encoding`: 'ascii', 'hex', or any other string. */
  datatype Encoding = Ascii | Hex | OtherEncoding

  /** The parsed command-line options the core consults. */
  datatype Options = Options(mode: Mode, encoding: Encoding, recursive: bool)

  /** The directory open of an inode address. */
  function OpenDir(fs: Filesystem, addr: nat): (d: DirSlot)
    ensures d.Readable? ==> addr in fs.dirs
    ensures addr !in fs.dirs ==> d == Unreadable(IOErr)
  {
    if addr in fs.dirs then fs.dirs[addr] else Unreadable(IOErr)
  }
}

=== FILE: walker.dfy ===
/**
 `list_directory`: scan every entry of a directory and, in recursive mode,
 descend into subdirectories whose inode is not on the stack of directories
 currently being listed.
 */
module Walker {
  import opened Wrappers
  import opened Tsk
  import opened Classify
  import opened Scan

  /** A directory entered: its inode address and the stack just after the push. */
  datatype Visit = Visit(addr: nat, path: seq<nat>)

  /** What a listing produced: the printed records in order, the directories
      entered in order, and the stack on return. */
  datatype Walked = Walked(records: seq<Record>, visits: seq<Visit>, stack: seq<nat>)

  /** An exception that escaped every handler: the records printed before it
      was raised, and what was raised. */
  datatype Aborted = Aborted(printed: seq<Record>, cause: Crash)

  predicate NoDup(s: seq<nat>) {
    forall i, j :: 0 <= i < j < |s| ==> s[i] != s[j]
  }

  /** The directory addresses of the filesystem not on the stack. */
  function Unvisited(fs: Filesystem, stack: seq<nat>): nat {
    |fs.dirs.Keys - set a | a in stack|
  }

  lemma UnvisitedShrinks(fs: Filesystem, stack: seq<nat>, addr: nat)
    requires addr in fs.dirs && addr !in stack
    ensures Unvisited(fs, stack + [addr]) < Unvisited(fs, stack)
  {
    var before := set a | a in stack;
    var after := set a | a in stack + [addr];
    assert after == before + {addr};
    assert fs.dirs.Keys - after == (fs.dirs.Keys - before) - {addr};
  }

  /** A visit made beneath `stack`: its path extends `stack`, ends at the
      visited address, and every address it adds is an openable directory. */
  predicate VisitBelow(v: Visit, stack: seq<nat>, fs: Filesystem) {
    && |v.path| > |stack|
    && v.path[..|stack|] == stack
    && v.path[|v.path| - 1] == v.addr
    && forall j :: |stack| <= j < |v.path| ==> v.path[j] in fs.dirs
  }

  predicate AllBelow(visits: seq<Visit>, stack: seq<nat>, fs: Filesystem) {
    forall i :: 0 <= i < |visits| ==> VisitBelow(visits[i], stack, fs)
  }

  predicate AllDistinct(visits: seq<Visit>) {
    forall i :: 0 <= i < |visits| ==> NoDup(visits[i].path)
  }

  /** A printed record is never for `.` or `..`. */
  predicate RecordOk(rec: Record) {
    rec.OpenFailed? || !IsDotName(rec.filename)
  }

  predicate AllRecordsOk(recs: seq<Record>) {
    forall i :: 0 <= i < |recs| ==> RecordOk(recs[i])
  }

  lemma VisitBelowShorter(v: Visit, stack: seq<nat>, x: nat, fs: Filesystem)
    requires VisitBelow(v, stack + [x], fs) && x in fs.dirs
    ensures VisitBelow(v, stack, fs)
  {
    assert v.path[..|stack|] == (stack + [x])[..|stack|];
    assert v.path[|stack|] == (stack + [x])[|stack|];
  }

  /** The visits of a directory entered from `stack` all lie beneath `stack`. */
  lemma EnteredBelow(fs: Filesystem, stack: seq<nat>, inode: nat, vs: seq<Visit>)
    requires inode in fs.dirs
    requires |vs| > 0 && vs[0] == Visit(inode, stack + [inode])
    requires AllBelow(vs[1..], stack + [inode], fs)
    ensures AllBelow(vs, stack, fs)
  {
    forall i | 0 <= i < |vs|
      ensures VisitBelow(vs[i], stack, fs)
    {
      if i > 0 {
        assert VisitBelow(vs[1..][i - 1], stack + [inode], fs);
        VisitBelowShorter(vs[i], stack, inode, fs);
      } else {
        assert (stack + [inode])[..|stack|] == stack;
      }
    }
  }

  lemma NoDupPush(s: seq<nat>, x: nat)
    requires x !in s
    ensures NoDup(s) ==> NoDup(s + [x])
  {
  }

  /**
   `list_directory(d, stack, depth)` for the directory `d` at inode `addr`,
   whose entries are `entries`: push `addr`, walk the entries, pop.
   */
  function ListDirectory(opts: Options, fs: Filesystem, addr: nat, entries: seq<Entry>, stack: seq<nat>, depth: nat)
    : (r: Result<Walked, Aborted>)
    ensures r.Failure? ==> r.error.cause != RootOpenError && AllRecordsOk(r.error.printed)
    ensures r.Success? ==> r.value.stack == stack
    ensures r.Success? ==> |r.value.visits| > 0 && r.value.visits[0] == Visit(addr, stack + [addr])
    ensures r.Success? ==> AllBelow(r.value.visits[1..], stack + [addr], fs)
    ensures r.Success? && NoDup(stack + [addr]) ==> AllDistinct(r.value.visits)
    ensures r.Success? ==> AllRecordsOk(r.value.records)
    ensures r.Failure? && |entries| > 0 && ScanInode(opts, fs, entries[0], depth).Success?
            ==> ScanInode(opts, fs, entries[0], depth).value <= r.error.printed
    decreases Unvisited(fs, stack + [addr]), 1, 0, 0
  {
    var pushed := stack + [addr];
    match WalkEntries(opts, fs, entries, pushed, depth)
    case Failure(c) => Failure(c)
    case Success(w) =>
      assert w.stack[..|w.stack| - 1] == stack;
      Success(Walked(w.records, [Visit(addr, pushed)] + w.visits, w.stack[..|w.stack| - 1]))
  }

  /** What follows `scan_inode` for one entry: open it as a directory when it
      is one and the walk is recursive, then recurse unless its inode is on
      the stack. A RuntimeError prints the error marker; an IOError escapes
      the handler. */
  function Descend(opts: Options, fs: Filesystem, f: Entry, stack: seq<nat>, depth: nat)
    : (r: Result<Walked, Aborted>)
    requires f.meta.Some? && f.name.Some?
    ensures r.Failure? ==> r.error.cause != RootOpenError && AllRecordsOk(r.error.printed)
    ensures r.Success? ==> r.value.stack == stack
    ensures r.Success? ==> AllBelow(r.value.visits, stack, fs)
    ensures r.Success? && NoDup(stack) ==> AllDistinct(r.value.visits)
    ensures r.Success? ==> AllRecordsOk(r.value.records)
    ensures r.Success? && !opts.recursive ==> r.value.visits == []
    decreases Unvisited(fs, stack), 0, 0, 1
  {
    if IsFsDirectory(f.name.value) && opts.recursive then
      var inode := f.meta.value.addr;
      match OpenDir(fs, inode)
      case Unreadable(RuntimeErr) => Success(Walked([OpenFailed], [], stack))
      case Unreadable(IOErr) => Failure(Aborted([], DirOpenIOError))
      case Readable(children) =>
        if inode !in stack then
          UnvisitedShrinks(fs, stack, inode);
          var r := ListDirectory(opts, fs, inode, children, stack, depth + 1);
          if r.Success? then
            EnteredBelow(fs, stack, inode, r.value.visits);
            NoDupPush(stack, inode);
            r
          else r
        else Success(Walked([], [], stack))
    else Success(Walked([], [], stack))
  }

  /** The loop `for f in directory` over `entries`, with `stack` holding the
      directories being listed, the current one last. */
  function WalkEntries(opts: Options, fs: Filesystem, entries: seq<Entry>, stack: seq<nat>, depth: nat)
    : (r: Result<Walked, Aborted>)
    ensures r.Failure? ==> r.error.cause != RootOpenError && AllRecordsOk(r.error.printed)
    ensures r.Success? ==> r.value.stack == stack
    ensures r.Success? ==> AllBelow(r.value.visits, stack, fs)
    ensures r.Success? && NoDup(stack) ==> AllDistinct(r.value.visits)
    ensures r.Success? ==> AllRecordsOk(r.value.records)
    ensures r.Success? && !opts.recursive ==> r.value.visits == []
    ensures r.Failure? && |entries| > 0 && ScanInode(opts, fs, entries[0], depth).Success?
            ==> ScanInode(opts, fs, entries[0], depth).value <= r.error.printed
    decreases Unvisited(fs, stack), 0, |entries|, 2
  {
    if |entries| == 0 then Success(Walked([], [], stack))
    else
      var f := entries[0];
      match ScanInode(opts, fs, f, depth)
      case Failure(c) => Failure(Aborted([], c))
      case Success(recs) =>
        assert AllRecordsOk(recs);
        match Descend(opts, fs, f, stack, depth)
        case Failure(a) => Failure(Aborted(recs + a.printed, a.cause))
        case Success(w) =>
          match WalkEntries(opts, fs, entries[1..], w.stack, depth)
          case Failure(a) => Failure(Aborted(recs + w.records + a.printed, a.cause))
          case Success(w2) =>
            Success(Walked(recs + w.records + w2.records, w.visits + w2.visits, w2.stack))
  }

  /** A duplicate-free sequence drawn from `k` is no longer than `k`. */
  lemma {:induction false} DistinctWithin(s: seq<nat>, k: set<nat>)
    requires NoDup(s)
    requires forall i :: 0 <= i < |s| ==> s[i] in k
    ensures |s| <= |k|
    decreases |s|
  {
    if |s| > 0 {
      var x := s[|s| - 1];
      var front := s[..|s| - 1];
      forall i | 0 <= i < |front|
        ensures front[i] in k - {x}
      {
        assert front[i] == s[i] && s[i] != s[|s| - 1];
      }
      DistinctWithin(front, k - {x});
    }
  }

  /** Every path of a walk started at an openable root stays within the
      filesystem's directories, so its length is bounded by their number. */
  lemma PathsWithinDirs(fs: Filesystem, root: nat, visits: seq<Visit>)
    requires root in fs.dirs
    requires |visits| > 0 && visits[0] == Visit(root, [root])
    requires AllBelow(visits[1..], [root], fs)
    requires AllDistinct(visits)
    ensures forall i :: 0 <= i < |visits| ==> |visits[i].path| <= |fs.dirs|
  {
    forall i | 0 <= i < |visits|
      ensures |visits[i].path| <= |fs.dirs|
    {
      var p := visits[i].path;
      if i > 0 {
        assert VisitBelow(visits[1..][i - 1], [root], fs);
        assert p[..1] == [root];
        assert p[0] == root;
      }
      forall j | 0 <= j < |p|
        ensures p[j] in fs.dirs.Keys
      {
        if i > 0 && j > 0 {
          assert VisitBelow(visits[1..][i - 1], [root], fs);
        }
      }
      DistinctWithin(p, fs.dirs.Keys);
    }
  }

  /** The top-level `list_directory(directory, [], 0)` on the directory at
      inode `root`: on return the stack is empty again, no directory is
      entered while it is already on the stack, and the nesting depth is
      bounded by the number of directories. */
  function WalkFrom(opts: Options, fs: Filesystem, root: nat): (r: Result<Walked, Aborted>)
    ensures OpenDir(fs, root).Unreadable? <==> r.Failure? && r.error.cause == RootOpenError
    ensures r.Failure? && r.error.cause == RootOpenError ==> r.error.printed == []
    ensures r.Failure? ==> AllRecordsOk(r.error.printed)
    ensures r.Success? ==> r.value.stack == []
    ensures r.Success? ==> |r.value.visits| > 0 && r.value.visits[0] == Visit(root, [root])
    ensures r.Success? ==> AllDistinct(r.value.visits)
    ensures r.Success? ==> forall i :: 0 <= i < |r.value.visits| ==> |r.value.visits[i].path| <= |fs.dirs|
    ensures r.Success? ==> AllRecordsOk(r.value.records)
  {
    match OpenDir(fs, root)
    case Unreadable(_) => Failure(Aborted([], RootOpenError))
    case Readable(entries) =>
      var r := ListDirectory(opts, fs, root, entries, [], 0);
      if r.Success? then
        assert [] + [root] == [root];
        PathsWithinDirs(fs, root, r.value.visits);
        r
      else r
  }

  /** A subdirectory whose open raises RuntimeError leaves one error marker
      and the walk goes on with the next sibling. */
  lemma RuntimeErrorContinues(opts: Options, fs: Filesystem, entries: seq<Entry>, stack: seq<nat>, depth: nat)
    requires |entries| > 0 && entries[0].meta.Some? && entries[0].name.Some?
    requires IsFsDirectory(entries[0].name.value) && opts.recursive
    requires OpenDir(fs, entries[0].meta.value.addr) == Unreadable(RuntimeErr)
    ensures var r := WalkEntries(opts, fs, entries, stack, depth);
            var rest := WalkEntries(opts, fs, entries[1..], stack, depth);
            && (r.Success? <==> rest.Success?)
            && (r.Success? ==>
                  r.value.records == ScanInode(opts, fs, entries[0], depth).value + [OpenFailed] + rest.value.records)
  {
  }

  /** An IOError from opening a subdirectory is not caught and ends the walk,
      after the subdirectory's own rows have been printed. */
  lemma IOErrorAborts(opts: Options, fs: Filesystem, entries: seq<Entry>, stack: seq<nat>, depth: nat)
    requires |entries| > 0 && entries[0].meta.Some? && entries[0].name.Some?
    requires IsFsDirectory(entries[0].name.value) && opts.recursive
    requires OpenDir(fs, entries[0].meta.value.addr) == Unreadable(IOErr)
    ensures WalkEntries(opts, fs, entries, stack, depth)
         == Failure(Aborted(ScanInode(opts, fs, entries[0], depth).value, DirOpenIOError))
  {
    var rows := ScanInode(opts, fs, entries[0], depth).value;
    assert rows + [] == rows;
  }

  /** A crash while descending into an entry keeps the entry's own rows
      ahead of what the descent printed. */
  lemma DescendFailureKeepsRows(opts: Options, fs: Filesystem, entries: seq<Entry>, stack: seq<nat>, depth: nat)
    requires |entries| > 0 && ScanInode(opts, fs, entries[0], depth).Success?
    ensures var d := Descend(opts, fs, entries[0], stack, depth);
            d.Failure? ==>
              WalkEntries(opts, fs, entries, stack, depth)
              == Failure(Aborted(ScanInode(opts, fs, entries[0], depth).value + d.error.printed, d.error.cause))
  {
  }

  /** A crash in a later sibling keeps everything the earlier entry printed,
      its descendants' rows included, ahead of what the sibling printed. */
  lemma CrashKeepsEarlierRows(opts: Options, fs: Filesystem, entries: seq<Entry>, stack: seq<nat>, depth: nat)
    requires |entries| > 0 && ScanInode(opts, fs, entries[0], depth).Success?
    requires Descend(opts, fs, entries[0], stack, depth).Success?
    ensures var rows := ScanInode(opts, fs, entries[0], depth).value;
            var w := Descend(opts, fs, entries[0], stack, depth).value;
            var rest := WalkEntries(opts, fs, entries[1..], stack, depth);
            rest.Failure? ==>
              WalkEntries(opts, fs, entries, stack, depth)
              == Failure(Aborted(rows + w.records + rest.error.printed, rest.error.cause))
  {
  }

  /** A subdirectory entry with no attributes, at inode 2. */
  const LinkToTwo: Entry := Entry(Some(NameInfo("a", NameDir)), Some(MetaInfo(2, MetaDir, 0)), [])

  /** Directory 1 holds two hard links to the empty directory 2. */
  function TwoLinks(read: nat -> (int, nat) -> seq<Byte>): Filesystem {
    Filesystem(512, map[1 := Readable([LinkToTwo, LinkToTwo]), 2 := Readable([])], read)
  }

  const Recursive: Options := Options(List, Ascii, true)

  lemma EnterTwo(read: nat -> (int, nat) -> seq<Byte>)
    ensures ScanInode(Recursive, TwoLinks(read), LinkToTwo, 0) == Success([])
    ensures Descend(Recursive, TwoLinks(read), LinkToTwo, [1], 0) == Success(Walked([], [Visit(2, [1, 2])], [1]))
  {
    var fs := TwoLinks(read);
    assert WalkEntries(Recursive, fs, [], [1, 2], 1) == Success(Walked([], [], [1, 2]));
    assert [1] + [2] == [1, 2] && [1, 2][..1] == [1];
    var inner := ListDirectory(Recursive, fs, 2, [], [1], 1);
    assert inner.value == Walked([], [Visit(2, [1, 2])] + [], [1]);
    assert [Visit(2, [1, 2])] + [] == [Visit(2, [1, 2])];
    assert inner == Success(Walked([], [Visit(2, [1, 2])], [1]));
  }

  lemma WalkLinks(read: nat -> (int, nat) -> seq<Byte>)
    ensures WalkEntries(Recursive, TwoLinks(read), [LinkToTwo], [1], 0) == Success(Walked([], [Visit(2, [1, 2])], [1]))
    ensures WalkEntries(Recursive, TwoLinks(read), [LinkToTwo, LinkToTwo], [1], 0)
         == Success(Walked([], [Visit(2, [1, 2]), Visit(2, [1, 2])], [1]))
  {
    var fs := TwoLinks(read);
    EnterTwo(read);
    assert [LinkToTwo][1..] == [];
    assert [LinkToTwo, LinkToTwo][1..] == [LinkToTwo];
    var one := WalkEntries(Recursive, fs, [LinkToTwo], [1], 0);
    assert WalkEntries(Recursive, fs, [], [1], 0) == Success(Walked([], [], [1]));
    assert one.Success?;
    assert one.value == Walked([] + [] + [], [Visit(2, [1, 2])] + [], [1]);
    assert [Visit(2, [1, 2])] + [] == [Visit(2, [1, 2])];
    var two := WalkEntries(Recursive, fs, [LinkToTwo, LinkToTwo], [1], 0);
    assert two.Success?;
    assert two.value == Walked([] + [] + [], [Visit(2, [1, 2])] + [Visit(2, [1, 2])], [1]);
    assert [Visit(2, [1, 2])] + [Visit(2, [1, 2])] == [Visit(2, [1, 2]), Visit(2, [1, 2])];
    assert two == Success(Walked([], [Visit(2, [1, 2]), Visit(2, [1, 2])], [1]));
  }

  /** Only ancestors are refused: a directory reached through two sibling
      hard links is entered twice. */
  lemma HardLinkedDirectoryEnteredTwice(read: nat -> (int, nat) -> seq<Byte>)
    ensures WalkFrom(Recursive, TwoLinks(read), 1)
         == Success(Walked([], [Visit(1, [1]), Visit(2, [1, 2]), Visit(2, [1, 2])], []))
  {
    var fs := TwoLinks(read);
    WalkLinks(read);
    assert [] + [1] == [1] && [1][..0] == [];
    assert OpenDir(fs, 1) == Readable([LinkToTwo, LinkToTwo]);
    var top := ListDirectory(Recursive, fs, 1, [LinkToTwo, LinkToTwo], [], 0);
    assert top.Success?;
    assert top.value == Walked([], [Visit(1, [1])] + [Visit(2, [1, 2]), Visit(2, [1, 2])], []);
    assert [Visit(1, [1])] + [Visit(2, [1, 2]), Visit(2, [1, 2])] == [Visit(1, [1]), Visit(2, [1, 2]), Visit(2, [1, 2])];
  }
}

=== FILE: wrappers.dfy ===
/** Option and Result, used throughout the model. */
module Wrappers {

  /** A value that may be absent (a Python `None`). */
  datatype Option<+T> = None | Some(value: T)

  /** Either a computed value or the reason the computation stopped. */
  datatype Result<+T, +E> = Success(value: T) | Failure(error: E)
}
